=== FILE: README.md ===
# A Dafny model of the command reporter

The program runs a list of Linux performance commands ("uptime", "vmstat 1 3",
…), collects each command's output as a report, and shows the reports as tabs
in a terminal interface. The user moves between tabs with `h`/`l` or the arrow
keys and quits with `q` or Esc.

The program has two collectors:

- `src/perfcheck.rs` is the one `main` uses. It runs a built-in list of nine
  commands and aborts (`expect`) when `which` or a command cannot be spawned.
- `src/cmdrunner.rs` reads the command list from a file. Comments start with
  `#` and blank lines are skipped. It turns every per-command failure into
  text in that command's summary.

The model has six modules:

- `Wrappers`: `Option` and `Result`.
- `Text`: the standard-library string operations the collectors rely on:
  - `str::trim` over Unicode white space;
  - `split_once` on a character;
  - `replace('\t', "    ")`;
  - `split_ascii_whitespace`.
- `CmdLine`: what both collectors share:
  - the report record;
  - the split of a line into command name and argument text;
  - the argument vector;
  - the "not exist" message;
  - the outcomes of the two process boundaries.
- `CmdRunner`: `src/cmdrunner.rs`.
- `PerfCheck`: `src/perfcheck.rs`.
- `TabApp`: the tab state, key handling, drawing and event loop of `src/main.rs`.

Nothing in the model runs a process, reads a file or touches a terminal.
These boundaries are parameters instead:

- `which <cmd>` is a `WhichOracle`, giving the outcome for each command name.
- Spawning a command is a `SpawnOracle`, giving the outcome for each name and
  argument vector.
- The command file is a `Result` holding its decoded lines.
- The stream of terminal events is a sequence of read results.

Three behaviours of the code are easy to misread:

- Moving between tabs stops at the first and last tab; there is no
  wrap-around. The doc comments of `previous` and `next` (src/main.rs:24
  and 32) say so: with no previous or next tab the current tab stays.
- A command line is split at its first single space, not at a run of white
  space. The rest of the argument text is then tokenised on ASCII white
  space, so extra spaces between arguments do no harm
  (`CmdLine.SplitThenTokenize`).
- When the trimmed line has no space, the command name is the untrimmed
  line. Both collectors only pass trimmed lines, so this cannot be seen
  (`CmdLine.UntrimmedFallback`).

## Model

| member | source | states |
|---|---|---|
| Text.IsWhitespace | src/cmdrunner.rs:43-44 | the characters `trim` removes: the Unicode White_Space set, including vertical tab, NEL and the no-break and ideographic spaces |
| Text.IsAsciiWhitespace | src/cmdrunner.rs:69 | the characters `split_ascii_whitespace` splits on: space, tab, line feed, form feed and carriage return, but not vertical tab |
| Text.Trim | src/cmdrunner.rs:43-44 | trimming never lengthens a string; `Text.TrimInfix` says which slice remains |
| Text.LeadingWhitespaceMaximal | src/cmdrunner.rs:16 | the white space `trim` removes at the front is the longest all-white-space prefix: everything before the cut is white space and the character at the cut is not |
| Text.TrailingWhitespaceMaximal | src/cmdrunner.rs:16 | the same at the back: the longest all-white-space suffix is removed |
| Text.TrimInfix | src/cmdrunner.rs:43-44 | `trim` returns a contiguous slice of its input with only white space outside it, and that slice neither starts nor ends with white space |
| Text.TrimIsInfix | src/cmdrunner.rs:43-44 | some slice of the input with only white space before and after it is the trimmed string |
| Text.TrimOfTrimmed | src/cmdrunner.rs:16 | trimming a string that neither starts nor ends with white space gives the string back |
| Text.TrimIdempotent | src/cmdrunner.rs:43-44 | trimming twice is trimming once |
| Text.TrimEmptyIff | src/cmdrunner.rs:43-49 | a trimmed line is empty exactly when the original was all white space |
| Text.TrimKeepsOnlyOriginalChars | src/cmdrunner.rs:43 | trimming introduces no character that was not in the input |
| Text.IndexOf | src/cmdrunner.rs:42 | the index is the first occurrence of the character, and there is none exactly when the character is absent |
| Text.SplitOnce | src/cmdrunner.rs:42 | `split_once` finds a split exactly when the separator occurs; the input is then the part before, the separator and the part after, with no separator in the part before |
| Text.SplitOnceOfJoin | src/cmdrunner.rs:16 | joining a separator-free part, the separator and any rest, then splitting once, gives the two parts back |
| Text.ExpandTabs | src/cmdrunner.rs:75 | the output of the tab replacement holds no tab |
| Text.ExpandTabsChar | src/cmdrunner.rs:75 | a tab becomes exactly four spaces and every other character is kept as it is; with `Text.ExpandTabsAppend` this fixes the whole replacement |
| Text.ExpandTabsLength | src/cmdrunner.rs:75 | the output is three characters longer than the input per tab |
| Text.ExpandTabsAppend | src/cmdrunner.rs:75 | the replacement works character by character, so it distributes over concatenation |
| Text.ExpandTabsNoTab | src/perfcheck.rs:83 | text without tabs is left unchanged |
| Text.ExpandTabsIdempotent | src/perfcheck.rs:83 | replacing tabs twice is replacing them once |
| Text.WordLength | src/cmdrunner.rs:69 | the first word is the longest prefix with no ASCII white space in it |
| Text.Tokens | src/cmdrunner.rs:69 | `split_ascii_whitespace` yields only non-empty words with no ASCII white space in them |
| Text.TokensAppend | src/cmdrunner.rs:69 | an ASCII white-space separator splits the token list: the tokens of `a c b` are the tokens of `a` followed by those of `b` |
| Text.TokensOfToken | src/perfcheck.rs:79 | a single word tokenises to itself |
| Text.TokensOfJoin | src/perfcheck.rs:79 | words joined by single spaces tokenise back to the same words |
| Text.AsciiWhitespaceIsWhitespace | src/cmdrunner.rs:69 | every ASCII white-space character that separates arguments is also Unicode white space, which `trim` removes |
| CmdLine.SplitCommand | src/cmdrunner.rs:16 | when the trimmed line has a space, the name is everything before the first space and the argument text everything after it; otherwise the name is the untrimmed line and there are no arguments |
| CmdLine.SplitTrimmedLine | src/perfcheck.rs:41-50 | on a trimmed non-empty line the name is non-empty and has no space, and the line is the name, or the name, one space and the arguments |
| CmdLine.SplitOfJoined | src/perfcheck.rs:41-50 | a space-free name that does not start with white space, one space and non-empty argument text that does not end with white space split back into that name and that text |
| CmdLine.UntrimmedFallback | src/cmdrunner.rs:16 | the fallback keeps the untrimmed line: " uptime" becomes a command named " uptime" |
| CmdLine.Argv | src/cmdrunner.rs:68-69 | the argument vector consists of non-empty words without ASCII white space |
| CmdLine.SplitThenTokenize | src/perfcheck.rs:41-50 | on a trimmed non-empty line whose command name has no ASCII white space, splitting at the first space and tokenising the arguments gives the same words as tokenising the whole line |
| CmdLine.NotExistMessage | src/cmdrunner.rs:21 | the message starts with "CMD " and has the fixed length plus the name's length |
| CmdLine.NotExistRoundTrip | src/perfcheck.rs:56 | the command name can be read back out of its "not exist" message |
| CmdLine.ParseNotExistSound | src/perfcheck.rs:56 | every string the message parser accepts is the message for the name it returns |
| CmdLine.NotExistInjective | src/cmdrunner.rs:21 | two different commands never get the same message |
| CmdLine.NotExistMentionsNotExist | src/cmdrunner.rs:21 | the message contains the words "not exist" |
| CmdRunner.BeforeComment | src/cmdrunner.rs:42-44 | the text before a comment is a prefix of the line with no `#`, and it ends where the line ends or at the first `#` |
| CmdRunner.CleanLine | src/cmdrunner.rs:40-46 | a cleaned line is the text before any `#` with the white space around it removed: a slice of that text with only white space outside it, itself trimmed and without `#`; it is empty exactly when that text is all white space |
| CmdRunner.ProcessLines | src/cmdrunner.rs:38-50 | the kept lines are no more than the lines read, and every one is non-empty, comment-free and trimmed |
| CmdRunner.ProcessLinesAppend | src/cmdrunner.rs:38-50 | lines are processed independently and keep their order: processing a concatenation concatenates the results |
| CmdRunner.ProcessOneLine | src/cmdrunner.rs:40-49 | one line is kept, as its cleaned text, exactly when it was read and its content before any `#` is not blank |
| CmdRunner.ReadCmdsFromFile | src/cmdrunner.rs:32-53 | a file that cannot be opened passes its error on; a file that opens and yields finitely many lines gives the processed lines |
| CmdRunner.CheckWhichCmd | src/cmdrunner.rs:57-65 | a command counts as missing exactly when `which` ran and failed; when `which` cannot be spawned the check fails open |
| CmdRunner.RunCmd | src/cmdrunner.rs:67-89 | a summary starts with the tab-expanded output; on a failure status the separator, status and standard error follow; a spawn error becomes the summary |
| CmdRunner.RunCmdSuccess | src/cmdrunner.rs:73-75 | a successful summary has no tab and is three characters longer than the output per tab |
| CmdRunner.FailureTrailer | src/cmdrunner.rs:78-82 | the text appended after a failed command's output: separator, heading, status, stderr heading and standard error; `CmdRunner.FailureTrailerContents` states what it holds |
| CmdRunner.FailureTrailerContents | src/cmdrunner.rs:78-82 | the failure trailer contains the status and its heading and ends with the standard error |
| CmdRunner.RunCmdFailure | src/cmdrunner.rs:77-84 | a failed command's summary begins with its output, names its status and ends with its whole standard error |
| CmdRunner.Summarize | src/cmdrunner.rs:16-27 | a report is labelled with the split-off name; it holds the "not exist" message when `which` fails, and otherwise the run's summary for that name and argument vector |
| CmdRunner.MissingCommandNotSpawned | src/cmdrunner.rs:18-22 | a command `which` reports missing is never spawned, and its summary says "not exist" |
| CmdRunner.WhichFailsOpen | src/cmdrunner.rs:57-65 | when `which` cannot be spawned the command is run anyway, and its spawn error becomes the summary |
| CmdRunner.CollectLines | src/cmdrunner.rs:14-29 | one report per command line, in the same order |
| CmdRunner.CollectSequential | src/cmdrunner.rs:14-28 | the sequential loop pushes exactly the per-line reports, in order |
| CmdRunner.PushEach | src/cmdrunner.rs:15-28 | the push loop yields the step's report for each line, one per line and in order |
| CmdRunner.Collect | src/cmdrunner.rs:9-30 | a command file that cannot be opened is the only error; otherwise the k-th report is the summary of the k-th kept line, one per kept line |
| CmdRunner.CollectLabels | src/cmdrunner.rs:9-30 | every tab label is a non-empty prefix of its kept line without space or `#` |
| CmdRunner.CommentExample | src/cmdrunner.rs:42-46 | "echo hello # comment" is kept as "echo hello" |
| CmdRunner.SplitExample | src/cmdrunner.rs:16 | "echo hello" runs `echo` with the argument text "hello" |
| PerfCheck.ExpectPanic | src/perfcheck.rs:72 | the panic text of `expect`: the message, then ": ", then the error's debug text, each recoverable from its position |
| PerfCheck.RunPanic | src/perfcheck.rs:81 | the `expect` message of `run_cmd` is "Failed to execute command `", the command and a closing backquote |
| PerfCheck.WhetherCmdExist | src/perfcheck.rs:68-75 | the result is `which`'s success; the program aborts exactly when `which` cannot be spawned, with the `expect` message followed by ": " and the error's debug text |
| PerfCheck.RunCmd | src/perfcheck.rs:77-84 | the summary is the tab-expanded output whatever the exit status; the program aborts exactly when the command cannot be spawned, with the `expect` message naming the command, ": " and the error's debug text |
| PerfCheck.RunCmdIgnoresStatus | src/perfcheck.rs:83 | the exit status and standard error never reach a report |
| PerfCheck.CollectOne | src/perfcheck.rs:40-62 | a report is labelled with the name split off its entry; a found and spawned command's summary is its tab-expanded output; the two spawn failures abort with their `expect` panics |
| PerfCheck.MissingCommandNotSpawned | src/perfcheck.rs:52-57 | a command `which` reports missing gets the "not exist" message and is never spawned |
| PerfCheck.CollectOneAborts | src/perfcheck.rs:52-57 | an entry aborts exactly when `which` cannot be spawned, or the command was found and cannot be spawned |
| PerfCheck.CollectWith | src/perfcheck.rs:37-66 | collection succeeds exactly when no entry aborts, with one report per entry in order; otherwise it fails with the abort message of an entry |
| PerfCheck.CollectWithFirstAbort | src/perfcheck.rs:39-63 | the first entry that aborts decides the abort message, whatever the later entries would do |
| PerfCheck.Collect | src/perfcheck.rs:37-66 | collection completes exactly when no entry of the built-in list aborts, and then the k-th report is the k-th entry's; otherwise the abort is some entry's |
| PerfCheck.EntryLabel | src/perfcheck.rs:18-29 | each entry of the built-in list is labelled with its first word |
| PerfCheck.CmdsListNames | src/perfcheck.rs:18-29 | the nine labels are uptime, vmstat, mpstat, pidstat, iostat, free, sar, sar, top |
| PerfCheck.CollectLabels | src/perfcheck.rs:37-66 | a completed collection has exactly nine reports with those labels in order |
| PerfCheck.MpstatSplit | src/perfcheck.rs:22 | the `mpstat` entry splits into the name `mpstat` and the argument text "-P ALL 1 3" |
| PerfCheck.MpstatArgv | src/perfcheck.rs:79 | the arguments split off the `mpstat` entry are passed as the four words -P, ALL, 1, 3 |
| TabApp.IndexOutOfBounds | src/main.rs:73 | the bounds-check panic begins with Rust's fixed text "index out of bounds: the len is " |
| TabApp.Previous | src/main.rs:24-30 | moving left keeps the reports and lowers the index by one, except on the first tab |
| TabApp.Next | src/main.rs:32-38 | moving right keeps the reports and raises the index by one, except on the last tab; it panics on an empty list |
| TabApp.MovesPreserveValid | src/main.rs:24-38 | moving either way keeps the selection on an existing tab |
| TabApp.PreviousUndoesNext | src/main.rs:24-38 | moving left undoes moving right, except from the last tab |
| TabApp.NextUndoesPrevious | src/main.rs:24-38 | moving right undoes moving left, except from the first tab |
| TabApp.EndsAreFixed | src/main.rs:26-28 | the first tab is fixed under moving left and the last under moving right: there is no wrap-around |
| TabApp.NextNSaturates | src/main.rs:32-38 | `k` moves right reach index min(i + k, n - 1) |
| TabApp.PreviousNSaturates | src/main.rs:24-30 | `k` moves left reach index max(i - k, 0) |
| TabApp.PaletteOf | src/main.rs:59-64 | the palette is green exactly for the selected tab |
| TabApp.Titles | src/main.rs:42-48 | the tab bar has one title per report |
| TabApp.TitlesContents | src/main.rs:42-48 | each title carries its report's command name and its index's palette |
| TabApp.Render | src/main.rs:67-83 | drawing panics exactly when the selection is not an existing tab, with the vector's index-out-of-bounds message giving length and index; otherwise the frame selects that tab and has one title per report |
| TabApp.RenderShowsSelection | src/main.rs:41-83 | a drawn frame labels every tab with its command name, greens exactly the selected tab, and shows the selected summary in a green border |
| TabApp.New | src/main.rs:99-107 | a new application is running on the given reports with the first tab selected, and its selection is valid exactly when there is a report |
| TabApp.ActionOf | src/main.rs:117-129 | only a key press maps to an action |
| TabApp.KeyBindings | src/main.rs:119-124 | exactly `l` and Right move right, exactly `h` and Left move left, exactly `q` and Esc quit |
| TabApp.HandleEvent | src/main.rs:117-141 | a move-right key applies `next`, a move-left key applies `previous`, a quit key only sets the state, and any other event changes nothing; the reports never change, and only moving right over no reports panics |
| TabApp.HandleEventPreservesValid | src/main.rs:117-141 | on a valid selection handling any event succeeds and keeps the selection valid |
| TabApp.Run | src/main.rs:109-115 | the loop stops only in the quitting state, with the unread input a suffix of the input; it waits only while running |
| TabApp.RunLoop | src/main.rs:109-115 | the `while` loop over the state produces the outcome the recursive definition gives |
| TabApp.QuittingReadsNothing | src/main.rs:110 | a quitting application reads no event and stops at once |
| TabApp.EmptyReportsPanic | src/main.rs:73 | with no reports the first draw panics, with "the len is 0 but the index is 0", before any event is read |
| Text.Decimal | src/main.rs:73 | a number prints as a non-empty string of decimal digits with no leading zero |
| Text.DecimalRoundTrip | src/main.rs:73 | the printed digits read back as the number |
| TabApp.RunNeverPanics | src/main.rs:109-141 | from a valid selection the loop never panics, never changes the reports, and keeps the selection valid |
| TabApp.NewNeverPanics | src/main.rs:171-181 | the application started on a non-empty list of reports never panics |
| TabApp.CollectedAppNeverPanics | src/main.rs:171-181 | when the built-in collection completes, the application started on its reports never panics, whatever events arrive |
| TabApp.QuitKeyStops | src/main.rs:123 | pressing `q` or Esc ends the loop right after that event, leaving the remaining input unread |
| TabApp.PressingRight | src/main.rs:121 | `k` presses of `l` move the selection `k` tabs right, stopping at the last tab, and the loop then waits |

## Left out

- Terminal drawing is not modelled beyond `TabApp.Frame`. The model leaves out layout, colours other than green/gray, the note and footer texts, and `ratatui::init`/`restore`. A failing `terminal.draw` (`?` in `run`) is not modelled either.
- `event::read` is not modelled as a call; it is the input sequence. When the input runs out the loop is reported as `Waiting`, where the program would block.
- Process spawning and `which` are oracles, not modelled processes.
- UTF-8 lossy decoding of process output is left out: outputs arrive already decoded.
- The `{:?}` rendering of the exit status is an opaque string.
- The `println!` diagnostic of `check_which_cmd` is left out, and so is the start message of `main`.
- Opening `cmds.sh` and splitting it into lines (`BufRead::lines`, which also strips `\r\n`) is left out. The file arrives as a `Result` of lines, and a line that failed to read is `None`.
- `color_eyre::install` is left out.
- `main` runs only the perfcheck collector; cmdrunner's `collect` is modelled on its own.
- TabApp.Next: models the overflow panic of `len() - 1` on an empty list, as in a debug build. A release build would wrap around instead. The case is unreachable because the first draw already panics on an empty list.
- CmdRunner.ReadCmdsFromFile: the lines arrive as a finite sequence, so the model cannot show that `filter_map(|line| … .ok())` (src/cmdrunner.rs:38-48) never ends when every read fails, for example when `cmds.sh` is a directory: it opens, and each read returns an error.
- CmdRunner.Collect: for the same reason it does not show that such a file makes `collect` hang instead of returning an error.
- PerfCheck.WhetherCmdExist: the `{:?}` text of the spawn error is an opaque string in the outcome; its format is not modelled.
- PerfCheck.RunCmd: likewise, the `{:?}` text of the spawn error is opaque.

=== FILE: cmdline.dfy ===
/** What the two collectors (`src/cmdrunner.rs` and `src/perfcheck.rs`) share:
    the report record, the split of a command line into a command name and an
    argument string, the argument list handed to the operating system, the
    fixed "not exist" message, and the outcomes of the two external process
    boundaries (the `which` probe and spawning the command itself), which the
    model receives as oracles. */
module CmdLine {
  import opened Wrappers
  import opened Text

  /** One tab of the interface: the command name is the tab label and the
      summary its content (`Report` in perfcheck, `CmdOutput` in cmdrunner). */
  datatype Report = Report(cmdname: string, summary: string)

  /** A command line split into the executable name and the raw argument text. */
  datatype Command = Command(name: string, args: string)

  /** What running `which <cmd>` produced: it exited (successfully or not), or
      it could not be spawned at all, with the spawn error as Rust's `{:?}`
      prints it. */
  datatype WhichOutcome = WhichExited(success: bool) | WhichSpawnFailed(debug: string)

  /** What spawning a command and waiting for it produced: its captured
      (already decoded) output streams with the exit status as the opaque
      text Rust's `{:?}` prints, or the spawn error both as its message
      (`to_string`) and as `{:?}` prints it. */
  datatype SpawnOutcome =
    | Exited(stdout: string, success: bool, status: string, stderr: string)
    | SpawnFailed(error: string, debug: string)

  /** The `which` probe as an oracle over command names. */
  type WhichOracle = string -> WhichOutcome

  /** Spawning as an oracle over the command name and its argument vector. */
  type SpawnOracle = (string, seq<string>) -> SpawnOutcome

  /** `line.trim().split_once(' ')`, falling back to the whole (untrimmed)
      line with no arguments. The split is at the first single space, not at
      a run of whitespace. */
  function SplitCommand(line: string): (c: Command)
    ensures ' ' in Trim(line) ==> Trim(line) == c.name + " " + c.args && ' ' !in c.name
    ensures ' ' !in Trim(line) ==> c.name == line && c.args == ""
  {
    match SplitOnce(Trim(line), ' ')
    case Some((name, args)) => Command(name, args)
    case None => Command(line, "")
  }

  /** On a trimmed, non-empty line the command name is a non-empty prefix of
      the line without spaces, and the line is the name, one space and the
      arguments (or just the name). */
  lemma SplitTrimmedLine(line: string)
    requires IsTrimmed(line) && line != []
    ensures var c := SplitCommand(line);
      && c.name != []
      && ' ' !in c.name
      && (line == c.name + " " + c.args || (line == c.name && c.args == ""))
  {
    TrimOfTrimmed(line);
    var c := SplitCommand(line);
    if ' ' in line {
      assert line[0] != ' ';
    }
  }

  /** The converse of the split: a name without spaces, one space and any
      argument text split back into that name and that text. */
  lemma SplitOfJoined(name: string, args: string)
    requires ' ' !in name
    requires IsTrimmed(name + " " + args)
    ensures SplitCommand(name + " " + args) == Command(name, args)
  {
    TrimOfTrimmed(name + " " + args);
    SplitOnceOfJoin(name, ' ', args);
  }

  /** The fallback keeps the line as given, untrimmed: a line with
      surrounding whitespace and no inner space yields a command name with
      whitespace in it. Every caller passes a trimmed line, so this never
      shows. */
  lemma UntrimmedFallback()
    ensures SplitCommand(" uptime") == Command(" uptime", "")
  {
    var line := " uptime";
    assert LeadingWhitespace(line) == 1;
    assert line[1..] == "uptime";
    assert TrailingWhitespace("uptime") == 0;
    assert Trim(line) == "uptime";
    assert ' ' !in Trim(line);
  }

  /** The argument vector handed to the process: the ASCII-whitespace tokens
      of the argument text (`args.split_ascii_whitespace()`). */
  function Argv(args: string): (argv: seq<string>)
    ensures forall k :: 0 <= k < |argv| ==> IsToken(argv[k])
  {
    Tokens(args)
  }

  /** Splitting at the first space and then tokenising the arguments gives the
      same words as tokenising the whole line, provided the command name has
      no tab or other ASCII whitespace in it: runs of spaces between
      arguments are harmless. */
  lemma SplitThenTokenize(line: string)
    requires IsTrimmed(line) && line != []
    requires IsToken(SplitCommand(line).name)
    ensures [SplitCommand(line).name] + Argv(SplitCommand(line).args) == Tokens(line)
  {
    var c := SplitCommand(line);
    SplitTrimmedLine(line);
    TokensOfToken(c.name);
    if line == c.name + " " + c.args {
      TokensAppend(c.name, ' ', c.args);
    } else {
      assert Tokens("") == [];
    }
  }

  const NotExistPrefix: string := "CMD "
  const NotExistSuffix: string := " not exist" + ". Please recheck or install corresponding packages."

  /** `format!("CMD {cmd} not exist. Please recheck or install corresponding packages.")`. */
  function NotExistMessage(cmd: string): (m: string)
    ensures |m| == |NotExistPrefix| + |cmd| + |NotExistSuffix|
    ensures NotExistPrefix <= m
  {
    NotExistPrefix + cmd + NotExistSuffix
  }

  /** Recovers the command name from a "not exist" message. */
  function ParseNotExist(m: string): Option<string> {
    var lo, hi := |NotExistPrefix|, |m| - |NotExistSuffix|;
    if lo <= hi && m[..lo] == NotExistPrefix && m[hi..] == NotExistSuffix then Some(m[lo..hi])
    else None
  }

  /** The message names the command: parsing it gives the command back. */
  lemma NotExistRoundTrip(cmd: string)
    ensures ParseNotExist(NotExistMessage(cmd)) == Some(cmd)
  {
    var m := NotExistMessage(cmd);
    var lo, hi := |NotExistPrefix|, |m| - |NotExistSuffix|;
    assert m[..lo] == NotExistPrefix;
    assert m[hi..] == NotExistSuffix;
    assert m[lo..hi] == cmd;
  }

  /** Every string the parser accepts is the message for the name it returns. */
  lemma ParseNotExistSound(m: string, cmd: string)
    requires ParseNotExist(m) == Some(cmd)
    ensures NotExistMessage(cmd) == m
  {
    var lo, hi := |NotExistPrefix|, |m| - |NotExistSuffix|;
    assert m == m[..lo] + m[lo..hi] + m[hi..];
  }

  /** Two different commands never produce the same message. */
  lemma NotExistInjective(a: string, b: string)
    requires NotExistMessage(a) == NotExistMessage(b)
    ensures a == b
  {
    NotExistRoundTrip(a);
    NotExistRoundTrip(b);
  }

  /** The message contains the words "not exist". */
  lemma NotExistMentionsNotExist(cmd: string)
    ensures Contains(NotExistMessage(cmd), "not exist")
  {
    var m := NotExistMessage(cmd);
    var i := |NotExistPrefix| + |cmd| + 1;
    assert m[i..i + 9] == NotExistSuffix[1..10] == " not exist"[1..] == "not exist";
    ContainsWitness(m, "not exist", i);
  }
}

=== FILE: cmdrunner.dfy ===
/** The file-driven collector of `src/cmdrunner.rs`: the command list is read
    from a text file (one command per line, `#` starts a comment), each
    command is probed with `which` and run in order, and every line yields
    one `CmdOutput`. Per-command failures become text in the summary; only an
    unreadable file is an error. */
module CmdRunner {
  import opened Wrappers
  import opened Text
  import opened CmdLine

  /** cmdrunner's name for the report record. */
  type CmdOutput = Report

  /** The text before the first `#` of a line, or the whole line when it has
      no `#`. */
  function BeforeComment(l: string): (c: string)
    ensures c <= l
    ensures '#' !in c
    ensures c == l || l[|c|] == '#'
  {
    match SplitOnce(l, '#')
    case Some((content, _)) => content
    case None => l
  }

  /** One line of the command file with its comment stripped and the rest
      trimmed; empty exactly when the line is blank or comment-only. */
  function CleanLine(l: string): (r: string)
    ensures '#' !in r
    ensures IsTrimmed(r)
    ensures r == [] <==> AllWhitespace(BeforeComment(l))
    ensures var b := BeforeComment(l);
      exists i, j :: 0 <= i <= j <= |b| && r == b[i..j] && AllWhitespace(b[..i]) && AllWhitespace(b[j..])
  {
    TrimIsInfix(BeforeComment(l));
    TrimEmptyIff(BeforeComment(l));
    TrimKeepsOnlyOriginalChars(BeforeComment(l), '#');
    TrimIsTrimmed(BeforeComment(l));
    Trim(BeforeComment(l))
  }

  /** The per-line pipeline of `read_cmds_from_file` once the file is open.
      Each element is one line as the reader delivered it, `None` for a line
      that failed to read; failed lines and lines that clean to the empty
      string are dropped, the rest are kept in order. */
  function ProcessLines(lines: seq<Option<string>>): (r: seq<string>)
    ensures |r| <= |lines|
    ensures forall k :: 0 <= k < |r| ==> r[k] != [] && '#' !in r[k] && IsTrimmed(r[k])
  {
    if lines == [] then []
    else
      var rest := ProcessLines(lines[1..]);
      match lines[0]
      case None => rest
      case Some(l) =>
        var c := CleanLine(l);
        if c == [] then rest else [c] + rest
  }

  /** The line pipeline works line by line: processing a concatenation is
      the concatenation of the processed parts, so order is preserved. */
  lemma {:induction false} ProcessLinesAppend(a: seq<Option<string>>, b: seq<Option<string>>)
    ensures ProcessLines(a + b) == ProcessLines(a) + ProcessLines(b)
    decreases |a|
  {
    if a == [] {
      assert a + b == b;
    } else {
      assert (a + b)[1..] == a[1..] + b;
      ProcessLinesAppend(a[1..], b);
    }
  }

  /** A single line survives, as its cleaned text, exactly when it was read
      and its content before any `#` is not all whitespace. */
  lemma ProcessOneLine(line: Option<string>)
    ensures ProcessLines([line]) ==
      if line.Some? && !AllWhitespace(BeforeComment(line.value)) then [CleanLine(line.value)] else []
  {
    assert [line][1..] == [];
  }

  /** `read_cmds_from_file`: the file is either unreadable (the error is
      passed on) or a sequence of lines, which are processed. */
  function ReadCmdsFromFile(file: Result<seq<Option<string>>, string>): (r: Result<seq<string>, string>)
    ensures file.Err? <==> r.Err?
    ensures file.Err? ==> r.error == file.error
    ensures file.Ok? ==> r.value == ProcessLines(file.value)
  {
    match file
    case Err(e) => Err(e)
    case Ok(lines) => Ok(ProcessLines(lines))
  }

  /** `check_which_cmd`: a command counts as missing only when `which` ran
      and failed; when `which` itself cannot be spawned the check fails open. */
  function CheckWhichCmd(o: WhichOutcome): (found: bool)
    ensures !found <==> o == WhichExited(false)
    ensures o.WhichSpawnFailed? ==> found
  {
    match o
    case WhichExited(success) => success
    case WhichSpawnFailed(_) => true
  }

  /** The text appended to the summary of a command that exited with a
      failure status. */
  function FailureTrailer(status: string, stderr: string): string {
    (FailureSeparator + FailureHeading) + status + (StderrHeading + stderr)
  }

  const FailureSeparator: string := "\n\n----------\n"
  const FailureHeading: string := "CMD failed with status: "
  const StderrHeading: string := ", STDERR:\n"

  /** `run_cmd` after the process has been spawned and waited for: the
      summary starts with the tab-expanded standard output, has the failure
      trailer after it when the exit status is not success, and is the error
      text when the spawn failed. */
  function RunCmd(o: SpawnOutcome): (info: string)
    ensures o.Exited? ==> ExpandTabs(o.stdout) <= info
    ensures o.Exited? && o.success ==> info == ExpandTabs(o.stdout)
    ensures o.Exited? && !o.success ==> info == ExpandTabs(o.stdout) + FailureTrailer(o.status, o.stderr)
    ensures o.SpawnFailed? ==> info == o.error
  {
    match o
    case Exited(stdout, success, status, stderr) =>
      var info := ExpandTabs(stdout);
      if success then info else info + FailureTrailer(status, stderr)
    case SpawnFailed(e, _) => e
  }

  /** A successful command's summary has no tab and is three characters
      longer than its output for every tab in it. */
  lemma RunCmdSuccess(stdout: string, status: string, stderr: string)
    ensures var info := RunCmd(Exited(stdout, true, status, stderr));
      && '\t' !in info
      && |info| == |stdout| + 3 * multiset(stdout)['\t']
  {
    ExpandTabsLength(stdout);
  }

  /** The failure trailer names the exit status under its heading and ends
      with the standard-error text. */
  lemma FailureTrailerContents(status: string, stderr: string)
    ensures var t := FailureTrailer(status, stderr);
      Contains(t, status) && Contains(t, FailureHeading) && t[|t| - |stderr|..] == stderr
  {
    var t := FailureTrailer(status, stderr);
    ContainsInfix(FailureSeparator + FailureHeading, status, StderrHeading + stderr);
    var n := |FailureSeparator|;
    assert t[n..n + |FailureHeading|] == FailureHeading;
    ContainsWitness(t, FailureHeading, n);
  }

  /** A failed command's summary begins with its (tab-expanded) output and
      contains both the exit status and the whole standard-error text. */
  lemma RunCmdFailure(stdout: string, status: string, stderr: string)
    ensures var info := RunCmd(Exited(stdout, false, status, stderr));
      && ExpandTabs(stdout) <= info
      && Contains(info, status)
      && Contains(info, FailureHeading)
      && info[|info| - |stderr|..] == stderr
  {
    var out := ExpandTabs(stdout);
    var trailer := FailureTrailer(status, stderr);
    assert RunCmd(Exited(stdout, false, status, stderr)) == out + trailer;
    FailureTrailerContents(status, stderr);
    AppendTrailer(out, trailer, status, stderr);
  }

  /** What a trailer contains, the output followed by the trailer contains
      too, and it ends the same way. */
  lemma AppendTrailer(out: string, trailer: string, status: string, stderr: string)
    requires Contains(trailer, status) && Contains(trailer, FailureHeading)
    requires |stderr| <= |trailer| && trailer[|trailer| - |stderr|..] == stderr
    ensures var info := out + trailer;
      && out <= info
      && Contains(info, status)
      && Contains(info, FailureHeading)
      && info[|info| - |stderr|..] == stderr
  {
    ContainsAfter(out, trailer, status);
    ContainsAfter(out, trailer, FailureHeading);
    assert (out + trailer)[|out + trailer| - |stderr|..] == trailer[|trailer| - |stderr|..];
  }

  /** The summary of one command line, as the body of the `collect` loop
      computes it. */
  function Summarize(line: string, which: WhichOracle, spawn: SpawnOracle): (r: CmdOutput)
    ensures r.cmdname == SplitCommand(line).name
    ensures !CheckWhichCmd(which(r.cmdname)) ==> r.summary == NotExistMessage(r.cmdname)
    ensures CheckWhichCmd(which(r.cmdname)) ==>
      r.summary == RunCmd(spawn(r.cmdname, Argv(SplitCommand(line).args)))
  {
    var c := SplitCommand(line);
    var info := if CheckWhichCmd(which(c.name)) then RunCmd(spawn(c.name, Argv(c.args)))
                else NotExistMessage(c.name);
    Report(c.name, info)
  }

  /** A command `which` reports missing is never spawned: its report does not
      depend on the spawn oracle at all. */
  lemma MissingCommandNotSpawned(line: string, which: WhichOracle, spawn1: SpawnOracle, spawn2: SpawnOracle)
    requires which(SplitCommand(line).name) == WhichExited(false)
    ensures Summarize(line, which, spawn1) == Summarize(line, which, spawn2)
    ensures Contains(Summarize(line, which, spawn1).summary, "not exist")
  {
    NotExistMentionsNotExist(SplitCommand(line).name);
  }

  /** When `which` cannot be spawned the command is run anyway, and a spawn
      error of the command becomes its summary. */
  lemma WhichFailsOpen(line: string, which: WhichOracle, spawn: SpawnOracle)
    requires which(SplitCommand(line).name).WhichSpawnFailed?
    requires spawn(SplitCommand(line).name, Argv(SplitCommand(line).args)).SpawnFailed?
    ensures Summarize(line, which, spawn).summary ==
      spawn(SplitCommand(line).name, Argv(SplitCommand(line).args)).error
  {
  }

  /** The reports for a list of command lines, one per line in the same
      order. */
  function CollectLines(lines: seq<string>, which: WhichOracle, spawn: SpawnOracle): (rs: seq<CmdOutput>)
    ensures |rs| == |lines|
    ensures forall k :: 0 <= k < |lines| ==> rs[k] == Summarize(lines[k], which, spawn)
  {
    if lines == [] then []
    else [Summarize(lines[0], which, spawn)] + CollectLines(lines[1..], which, spawn)
  }

  /** The sequential `for` loop of `collect`: each line is summarized in
      order and its report pushed. The loop itself is `PushEach`. */
  method CollectSequential(lines: seq<string>, which: WhichOracle, spawn: SpawnOracle) returns (rst: seq<CmdOutput>)
    ensures |rst| == |lines|
    ensures forall k :: 0 <= k < |lines| ==> rst[k] == Summarize(lines[k], which, spawn)
  {
    rst := PushEach(lines, line => Summarize(line, which, spawn));
  }

  /** The loop itself, for any per-line step: one pushed report per line, in
      order. */
  method PushEach(lines: seq<string>, step: string -> CmdOutput) returns (rst: seq<CmdOutput>)
    ensures |rst| == |lines|
    ensures forall k :: 0 <= k < |lines| ==> rst[k] == step(lines[k])
  {
    rst := [];
    for i := 0 to |lines|
      invariant |rst| == i
      invariant forall k :: 0 <= k < i ==> rst[k] == step(lines[k])
    {
      rst := rst + [step(lines[i])];
    }
  }

  /** `collect`: read the command file and report on every command in it. */
  function Collect(file: Result<seq<Option<string>>, string>, which: WhichOracle, spawn: SpawnOracle)
    : (r: Result<seq<CmdOutput>, string>)
    ensures file.Err? ==> r == Err(file.error)
    ensures file.Ok? ==> r.Ok? && |r.value| == |ProcessLines(file.value)|
    ensures file.Ok? ==> forall k :: 0 <= k < |r.value| ==>
      r.value[k] == Summarize(ProcessLines(file.value)[k], which, spawn)
  {
    match ReadCmdsFromFile(file)
    case Err(e) => Err(e)
    case Ok(cmds) => Ok(CollectLines(cmds, which, spawn))
  }

  /** Every tab label `collect` produces is a non-empty command name without
      spaces or `#`, taken from the matching kept line. */
  lemma CollectLabels(lines: seq<Option<string>>, which: WhichOracle, spawn: SpawnOracle)
    ensures var rs := Collect(Ok(lines), which, spawn).value;
      forall k :: 0 <= k < |rs| ==>
        && rs[k].cmdname != []
        && ' ' !in rs[k].cmdname
        && '#' !in rs[k].cmdname
        && rs[k].cmdname <= ProcessLines(lines)[k]
  {
    var cmds := ProcessLines(lines);
    forall k | 0 <= k < |cmds|
      ensures var n := SplitCommand(cmds[k]).name;
        n != [] && ' ' !in n && '#' !in n && n <= cmds[k]
    {
      SplitTrimmedLine(cmds[k]);
    }
  }

  /** The comment of "echo hello # comment" starts at its `#`. */
  lemma CommentExampleBeforeComment()
    ensures BeforeComment("echo hello # comment") == "echo hello "
  {
    SplitOnceOfJoin("echo hello ", '#', " comment");
    assert "echo hello # comment" == "echo hello " + ['#'] + " comment";
  }

  lemma CommentExampleClean()
    ensures CleanLine("echo hello # comment") == Trim("echo hello ")
  {
    CommentExampleBeforeComment();
  }

  lemma CommentExampleTrim()
    ensures Trim("echo hello ") == "echo hello"
  {
    assert "echo hello " == "echo hello" + [' '];
    TrimOfPadded("echo hello", ' ');
  }

  /** A comment after a command is stripped: "echo hello # comment" is kept
      as "echo hello". */
  lemma CommentExample()
    ensures CleanLine("echo hello # comment") == "echo hello"
  {
    CommentExampleClean();
    CommentExampleTrim();
  }

  /** "echo hello" runs `echo` with the argument text "hello". */
  lemma SplitExample()
    ensures SplitCommand("echo hello") == Command("echo", "hello")
  {
    assert "echo hello" == "echo" + " " + "hello";
    SplitOfJoined("echo", "hello");
  }
}

=== FILE: perfcheck.dfy ===
/** The fixed-list collector of `src/perfcheck.rs`: nine built-in commands
    (a "Linux performance analysis in 60 seconds" checklist) are probed with
    `which` and run in order. Unlike cmdrunner, a `which` or a command that
    cannot be spawned aborts the whole program (`expect`), and a command's
    failure status and standard error are ignored. */
module PerfCheck {
  import opened Wrappers
  import opened Text
  import opened CmdLine

  /** `CMDS_LIST`. */
  const CmdsList: seq<string> := [
    "uptime",
    "vmstat 1 3",
    "mpstat -P ALL 1 3",
    "pidstat 1 3",
    "iostat -xz 1 3",
    "free -m",
    "sar -n DEV 1 2",
    "sar -n TCP,ETCP 1 2",
    "top -b -n 1"
  ]

  /** The tab labels the list produces, in order. */
  const CmdNames: seq<string> :=
    ["uptime", "vmstat", "mpstat", "pidstat", "iostat", "free", "sar", "sar", "top"]

  /** The message `whether_cmd_exist` passes to `expect`. */
  const WhichPanic: string := "Failed to execute 'type' process"

  /** The message `run_cmd` passes to `expect`. */
  function RunPanic(cmd: string): (m: string)
    ensures |m| == |"Failed to execute command `"| + |cmd| + 1
    ensures "Failed to execute command `" <= m && m[|m| - 1] == '`'
    ensures m[|"Failed to execute command `"|..|m| - 1] == cmd
  {
    "Failed to execute command `" + cmd + "`"
  }

  /** The panic of `Result::expect(msg)` on an error: the message, a colon
      and the error as `{:?}` prints it. */
  function ExpectPanic(msg: string, debug: string): (m: string)
    ensures |m| == |msg| + 2 + |debug|
    ensures msg <= m && m[|msg|..|msg| + 2] == ": " && m[|msg| + 2..] == debug
  {
    msg + ": " + debug
  }

  /** `whether_cmd_exist`: the success of `which`, or an abort when `which`
      cannot be spawned. */
  function WhetherCmdExist(o: WhichOutcome): (r: Result<bool, string>)
    ensures r.Err? <==> o.WhichSpawnFailed?
    ensures r.Err? ==> r.error == ExpectPanic(WhichPanic, o.debug) && WhichPanic <= r.error
    ensures r.Ok? ==> r.value == o.success
  {
    match o
    case WhichExited(success) => Ok(success)
    case WhichSpawnFailed(debug) => Err(ExpectPanic(WhichPanic, debug))
  }

  /** `run_cmd`: the tab-expanded standard output whatever the exit status,
      or an abort naming the command when it cannot be spawned. */
  function RunCmd(cmd: string, o: SpawnOutcome): (r: Result<string, string>)
    ensures r.Err? <==> o.SpawnFailed?
    ensures r.Err? ==> r.error == ExpectPanic(RunPanic(cmd), o.debug) && RunPanic(cmd) <= r.error
    ensures r.Ok? ==> '\t' !in r.value && r.value == ExpandTabs(o.stdout)
  {
    match o
    case Exited(stdout, _, _, _) => Ok(ExpandTabs(stdout))
    case SpawnFailed(_, debug) => Err(ExpectPanic(RunPanic(cmd), debug))
  }

  /** The exit status and standard error never reach a perfcheck report. */
  lemma RunCmdIgnoresStatus(cmd: string, stdout: string, ok1: bool, st1: string, err1: string,
                            ok2: bool, st2: string, err2: string)
    ensures RunCmd(cmd, Exited(stdout, ok1, st1, err1)) == RunCmd(cmd, Exited(stdout, ok2, st2, err2))
  {
  }

  /** One iteration of the `collect` loop: split the entry, probe it, and run
      it or report it missing; `Err` is the abort message. */
  function CollectOne(line: string, which: WhichOracle, spawn: SpawnOracle): (r: Result<Report, string>)
    ensures r.Ok? ==> r.value.cmdname == SplitCommand(line).name
    ensures var c := SplitCommand(line); var o := spawn(c.name, Argv(c.args));
      which(c.name) == WhichExited(true) && o.Exited? ==> r == Ok(Report(c.name, ExpandTabs(o.stdout)))
    ensures var c := SplitCommand(line); var o := spawn(c.name, Argv(c.args));
      which(c.name) == WhichExited(true) && o.SpawnFailed? ==> r == Err(ExpectPanic(RunPanic(c.name), o.debug))
    ensures var c := SplitCommand(line);
      which(c.name).WhichSpawnFailed? ==> r == Err(ExpectPanic(WhichPanic, which(c.name).debug))
  {
    var c := SplitCommand(line);
    match WhetherCmdExist(which(c.name))
    case Err(e) => Err(e)
    case Ok(found) =>
      if found then
        match RunCmd(c.name, spawn(c.name, Argv(c.args)))
        case Err(e) => Err(e)
        case Ok(info) => Ok(Report(c.name, info))
      else Ok(Report(c.name, NotExistMessage(c.name)))
  }

  /** A command `which` reports missing gets the fixed message and is never
      spawned: its report does not depend on the spawn oracle. */
  lemma MissingCommandNotSpawned(line: string, which: WhichOracle, spawn1: SpawnOracle, spawn2: SpawnOracle)
    requires which(SplitCommand(line).name) == WhichExited(false)
    ensures CollectOne(line, which, spawn1) == CollectOne(line, which, spawn2)
    ensures CollectOne(line, which, spawn1) ==
      Ok(Report(SplitCommand(line).name, NotExistMessage(SplitCommand(line).name)))
  {
  }

  /** An entry aborts exactly when `which` cannot be spawned, or the command
      is found and then cannot be spawned. */
  lemma CollectOneAborts(line: string, which: WhichOracle, spawn: SpawnOracle)
    ensures var c := SplitCommand(line);
      CollectOne(line, which, spawn).Err? <==>
        || which(c.name).WhichSpawnFailed?
        || (which(c.name) == WhichExited(true) && spawn(c.name, Argv(c.args)).SpawnFailed?)
  {
  }

  /** The `collect` loop over a list of entries, given the work done for
      one entry: the reports in entry order, or the abort message of the
      first entry that aborts. */
  function CollectWith(lines: seq<string>, step: string -> Result<Report, string>): (r: Result<seq<Report>, string>)
    ensures r.Ok? <==> forall k :: 0 <= k < |lines| ==> step(lines[k]).Ok?
    ensures r.Ok? ==> |r.value| == |lines|
    ensures r.Ok? ==> forall k :: 0 <= k < |lines| ==> r.value[k] == step(lines[k]).value
    ensures r.Err? ==> exists k :: 0 <= k < |lines| && step(lines[k]) == Err(r.error)
  {
    if lines == [] then Ok([])
    else
      match step(lines[0])
      case Err(e) => Err(e)
      case Ok(report) =>
        match CollectWith(lines[1..], step)
        case Err(e) => Err(e)
        case Ok(reports) => Ok([report] + reports)
  }

  /** The first entry that aborts decides the abort message; the entries
      after it are never run. */
  lemma {:induction false} CollectWithFirstAbort(lines: seq<string>, step: string -> Result<Report, string>, k: nat)
    requires k < |lines| && step(lines[k]).Err?
    requires forall j :: 0 <= j < k ==> step(lines[j]).Ok?
    ensures CollectWith(lines, step) == Err(step(lines[k]).error)
    decreases k
  {
    if k > 0 {
      var rest := lines[1..];
      assert forall j :: 0 <= j < k - 1 ==> rest[j] == lines[j + 1];
      CollectWithFirstAbort(rest, step, k - 1);
      assert step(lines[0]).Ok?;
    }
  }

  /** `collect`: the built-in list, each entry split, probed and run. */
  function Collect(which: WhichOracle, spawn: SpawnOracle): (r: Result<seq<Report>, string>)
    ensures r.Ok? <==> forall k :: 0 <= k < |CmdsList| ==> CollectOne(CmdsList[k], which, spawn).Ok?
    ensures r.Ok? ==> |r.value| == |CmdsList|
    ensures r.Ok? ==> forall k :: 0 <= k < |CmdsList| ==> r.value[k] == CollectOne(CmdsList[k], which, spawn).value
    ensures r.Err? ==> exists k :: 0 <= k < |CmdsList| && CollectOne(CmdsList[k], which, spawn) == Err(r.error)
  {
    CollectWith(CmdsList, line => CollectOne(line, which, spawn))
  }

  /** An entry written as a name, one space and non-empty arguments, with
      no whitespace at either end, is labelled with that name. */
  lemma SplitEntry(line: string, name: string, args: string)
    requires name != [] && args != [] && ' ' !in name
    requires !IsWhitespace(name[0]) && !IsWhitespace(args[|args| - 1])
    requires line == name + " " + args
    ensures SplitCommand(line) == Command(name, args)
  {
    SplitOfJoined(name, args);
  }

  /** The label of entry `k`, given the argument text that follows the
      name and its space. */
  lemma LabelAt(k: nat, args: string)
    requires 0 < k < |CmdsList|
    requires args != [] && !IsWhitespace(args[|args| - 1])
    requires CmdsList[k] == CmdNames[k] + " " + args
    ensures SplitCommand(CmdsList[k]).name == CmdNames[k]
  {
    var name := CmdNames[k];
    assert name != [] && ' ' !in name && !IsWhitespace(name[0]) by {}
    SplitEntry(CmdsList[k], name, args);
  }

  /** The label of each entry, one lemma per entry. */
  lemma UptimeLabel()
    ensures SplitCommand(CmdsList[0]).name == CmdNames[0]
  {
    var line := "uptime";
    assert IsTrimmed(line) by {}
    TrimOfTrimmed(line);
    assert ' ' !in line by {}
    assert CmdsList[0] == line == CmdNames[0] by {}
  }

  lemma VmstatLabel()
    ensures SplitCommand(CmdsList[1]).name == CmdNames[1]
  {
    assert "1 3" != [] && !IsWhitespace("1 3"[2]) by {}
    assert CmdsList[1] == CmdNames[1] + " " + "1 3" by {}
    LabelAt(1, "1 3");
  }

  lemma MpstatLabel()
    ensures SplitCommand(CmdsList[2]).name == CmdNames[2]
  {
    assert "-P ALL 1 3" != [] && !IsWhitespace("-P ALL 1 3"[9]) by {}
    assert CmdsList[2] == CmdNames[2] + " " + "-P ALL 1 3" by {}
    LabelAt(2, "-P ALL 1 3");
  }

  /** The `mpstat` entry splits into its name and the text "-P ALL 1 3". */
  lemma MpstatSplit()
    ensures SplitCommand(CmdsList[2]) == Command("mpstat", "-P ALL 1 3")
  {
    assert "-P ALL 1 3" != [] && !IsWhitespace("-P ALL 1 3"[9]) by {}
    assert CmdsList[2] == "mpstat" + " " + "-P ALL 1 3" by {}
    assert "mpstat" != [] && ' ' !in "mpstat" && !IsWhitespace("mpstat"[0]) by {}
    SplitEntry(CmdsList[2], "mpstat", "-P ALL 1 3");
  }

  lemma PidstatLabel()
    ensures SplitCommand(CmdsList[3]).name == CmdNames[3]
  {
    assert "1 3" != [] && !IsWhitespace("1 3"[2]) by {}
    assert CmdsList[3] == CmdNames[3] + " " + "1 3" by {}
    LabelAt(3, "1 3");
  }

  lemma IostatLabel()
    ensures SplitCommand(CmdsList[4]).name == CmdNames[4]
  {
    assert "-xz 1 3" != [] && !IsWhitespace("-xz 1 3"[6]) by {}
    assert CmdsList[4] == CmdNames[4] + " " + "-xz 1 3" by {}
    LabelAt(4, "-xz 1 3");
  }

  lemma FreeLabel()
    ensures SplitCommand(CmdsList[5]).name == CmdNames[5]
  {
    assert "-m" != [] && !IsWhitespace("-m"[1]) by {}
    assert CmdsList[5] == CmdNames[5] + " " + "-m" by {}
    LabelAt(5, "-m");
  }

  lemma SarDevLabel()
    ensures SplitCommand(CmdsList[6]).name == CmdNames[6]
  {
    assert "-n DEV 1 2" != [] && !IsWhitespace("-n DEV 1 2"[9]) by {}
    assert CmdsList[6] == CmdNames[6] + " " + "-n DEV 1 2" by {}
    LabelAt(6, "-n DEV 1 2");
  }

  lemma SarTcpLabel()
    ensures SplitCommand(CmdsList[7]).name == CmdNames[7]
  {
    assert "-n TCP,ETCP 1 2" != [] && !IsWhitespace("-n TCP,ETCP 1 2"[14]) by {}
    assert CmdsList[7] == CmdNames[7] + " " + "-n TCP,ETCP 1 2" by {}
    LabelAt(7, "-n TCP,ETCP 1 2");
  }

  lemma TopLabel()
    ensures SplitCommand(CmdsList[8]).name == CmdNames[8]
  {
    assert "-b -n 1" != [] && !IsWhitespace("-b -n 1"[6]) by {}
    assert CmdsList[8] == CmdNames[8] + " " + "-b -n 1" by {}
    LabelAt(8, "-b -n 1");
  }

  /** The label of entry `k` of the list. */
  lemma EntryLabel(k: nat)
    requires k < |CmdsList|
    ensures SplitCommand(CmdsList[k]).name == CmdNames[k]
  {
    match k
    case 0 => UptimeLabel();
    case 1 => VmstatLabel();
    case 2 => MpstatLabel();
    case 3 => PidstatLabel();
    case 4 => IostatLabel();
    case 5 => FreeLabel();
    case 6 => SarDevLabel();
    case 7 => SarTcpLabel();
    case 8 => TopLabel();
  }

  /** Each entry's label is its first space-delimited word; both `sar`
      entries are labelled `sar`. */
  lemma CmdsListNames()
    ensures |CmdsList| == |CmdNames| == 9
    ensures forall k :: 0 <= k < |CmdsList| ==> SplitCommand(CmdsList[k]).name == CmdNames[k]
  {
    forall k | 0 <= k < |CmdsList|
      ensures SplitCommand(CmdsList[k]).name == CmdNames[k]
    {
      EntryLabel(k);
    }
  }

  /** When no spawn aborts, `collect` yields exactly nine reports, labelled
      in list order. */
  lemma CollectLabels(which: WhichOracle, spawn: SpawnOracle)
    ensures var r := Collect(which, spawn);
      r.Ok? ==> |r.value| == 9 && forall k :: 0 <= k < 9 ==> r.value[k].cmdname == CmdNames[k]
  {
    CmdsListNames();
  }

  /** The `mpstat` arguments are passed as four separate words. */
  lemma MpstatArgv()
    ensures Argv(SplitCommand(CmdsList[2]).args) == ["-P", "ALL", "1", "3"]
  {
    MpstatSplit();
    MpstatArgText();
  }

  /** The `mpstat` argument text tokenises to four words. */
  lemma MpstatArgText()
    ensures Argv("-P ALL 1 3") == ["-P", "ALL", "1", "3"]
  {
    var ts := ["-P", "ALL", "1", "3"];
    assert JoinSpaces(ts) == "-P ALL 1 3";
    TokensOfJoin(ts);
  }
}

=== FILE: tabapp.dfy ===
/** The terminal front end of `src/main.rs`: one tab per report, a current
    tab that moves with `h`/`l` or the arrow keys and stops at either end,
    and an event loop that draws and then waits for the next key until the
    user quits with `q` or Esc. The terminal itself is left out: drawing is
    modelled as the frame contents it produces, and `event::read` as a
    sequence of read results. */
module TabApp {
  import opened Wrappers
  import opened Text
  import opened CmdLine
  import PerfCheck

  /** The reports shown as tabs and the index of the selected one. */
  datatype TabContents = TabContents(curTabIdx: nat, reports: seq<Report>)

  /** The selected index names an existing tab. */
  predicate Valid(t: TabContents) {
    t.curTabIdx < |t.reports|
  }

  /** The panic of `self.reports.len() - 1` on an empty list (an overflow
      check of a debug build). */
  const SubtractOverflow: string := "attempt to subtract with overflow"

  /** The panic of indexing a vector of length `len` at `index`. */
  function IndexOutOfBounds(len: nat, index: nat): (m: string)
    ensures "index out of bounds: the len is " <= m
  {
    "index out of bounds: the len is " + Decimal(len) + " but the index is " + Decimal(index)
  }

  /** `previous`: one tab to the left, staying on the first tab. */
  function Previous(t: TabContents): (r: TabContents)
    ensures r.reports == t.reports
    ensures r.curTabIdx == if t.curTabIdx == 0 then 0 else t.curTabIdx - 1
  {
    if t.curTabIdx == 0 then t
    else t.(curTabIdx := t.curTabIdx - 1)
  }

  /** `next`: one tab to the right, staying on the last tab. Panics on an
      empty list of reports. */
  function Next(t: TabContents): (r: Result<TabContents, string>)
    ensures r.Err? <==> t.reports == []
    ensures r.Err? ==> r.error == SubtractOverflow
    ensures r.Ok? ==> r.value.reports == t.reports
    ensures r.Ok? && t.curTabIdx == |t.reports| - 1 ==> r.value == t
    ensures r.Ok? && t.curTabIdx != |t.reports| - 1 ==> r.value.curTabIdx == t.curTabIdx + 1
  {
    if |t.reports| == 0 then Err(SubtractOverflow)
    else if t.curTabIdx == |t.reports| - 1 then Ok(t)
    else Ok(t.(curTabIdx := t.curTabIdx + 1))
  }

  /** Moving keeps the selection on an existing tab. */
  lemma MovesPreserveValid(t: TabContents)
    requires Valid(t)
    ensures Valid(Previous(t))
    ensures Next(t).Ok? && Valid(Next(t).value)
  {
  }

  /** Previous undoes Next, except on the last tab. */
  lemma PreviousUndoesNext(t: TabContents)
    requires Valid(t) && t.curTabIdx < |t.reports| - 1
    ensures Previous(Next(t).value) == t
  {
  }

  /** Next undoes Previous, except on the first tab. */
  lemma NextUndoesPrevious(t: TabContents)
    requires Valid(t) && 0 < t.curTabIdx
    ensures Next(Previous(t)) == Ok(t)
  {
  }

  /** The first and the last tab are fixed points: there is no wrap-around. */
  lemma EndsAreFixed(t: TabContents)
    requires Valid(t)
    ensures t.curTabIdx == 0 ==> Previous(t) == t
    ensures t.curTabIdx == |t.reports| - 1 ==> Next(t) == Ok(t)
  {
  }

  /** `k` steps to the right, as repeated `next`. */
  function NextN(t: TabContents, k: nat): (r: Result<TabContents, string>)
    decreases k
  {
    if k == 0 then Ok(t)
    else match Next(t)
      case Err(e) => Err(e)
      case Ok(t') => NextN(t', k - 1)
  }

  /** `k` steps to the left, as repeated `previous`. */
  function PreviousN(t: TabContents, k: nat): (r: TabContents)
    decreases k
  {
    if k == 0 then t else PreviousN(Previous(t), k - 1)
  }

  /** `k` steps to the right saturate at the last tab. */
  lemma {:induction false} NextNSaturates(t: TabContents, k: nat)
    requires Valid(t)
    ensures NextN(t, k).Ok?
    ensures NextN(t, k).value.reports == t.reports
    ensures NextN(t, k).value.curTabIdx ==
      if t.curTabIdx + k < |t.reports| then t.curTabIdx + k else |t.reports| - 1
    decreases k
  {
    if k > 0 {
      NextNSaturates(Next(t).value, k - 1);
    }
  }

  /** `k` steps to the left saturate at the first tab. */
  lemma {:induction false} PreviousNSaturates(t: TabContents, k: nat)
    ensures PreviousN(t, k).reports == t.reports
    ensures PreviousN(t, k).curTabIdx == if k <= t.curTabIdx then t.curTabIdx - k else 0
    decreases k
  {
    if k > 0 {
      PreviousNSaturates(Previous(t), k - 1);
    }
  }

  /** `tailwind::GREEN` for the selected tab, `tailwind::GRAY` for the rest. */
  datatype Palette = Green | Gray

  /** `palette`. */
  function PaletteOf(t: TabContents, idx: nat): (p: Palette)
    ensures p == Green <==> idx == t.curTabIdx
  {
    if idx == t.curTabIdx then Green else Gray
  }

  /** One title of the tab bar: the command name on its palette's background. */
  datatype Title = Title(caption: string, background: Palette)

  /** What a draw puts on screen apart from the fixed note and footer: the
      tab bar with its selection, and the selected report's summary framed
      in the selected palette. */
  datatype Frame = Frame(titles: seq<Title>, selected: nat, body: string, border: Palette)

  /** The titles of `render_title_bar`, one per report in order. */
  function Titles(reports: seq<Report>, t: TabContents): (ts: seq<Title>)
    ensures |ts| == |reports|
    decreases |reports|
  {
    if reports == [] then []
    else
      var last := |reports| - 1;
      Titles(reports[..last], t) + [Title(reports[last].cmdname, PaletteOf(t, last))]
  }

  /** Each title carries its report's name and the palette for its index. */
  lemma {:induction false} TitlesContents(reports: seq<Report>, t: TabContents)
    ensures forall i :: 0 <= i < |reports| ==>
      Titles(reports, t)[i] == Title(reports[i].cmdname, PaletteOf(t, i))
    decreases |reports|
  {
    if reports != [] {
      TitlesContents(reports[..|reports| - 1], t);
    }
  }

  /** Drawing the tabs: the title bar and the body, which indexes the
      reports with the selected index and panics when it is out of range. */
  function Render(t: TabContents): (r: Result<Frame, string>)
    ensures r.Err? <==> !Valid(t)
    ensures r.Err? ==> r.error == IndexOutOfBounds(|t.reports|, t.curTabIdx)
    ensures r.Ok? ==> r.value.selected == t.curTabIdx && |r.value.titles| == |t.reports|
  {
    if t.curTabIdx < |t.reports| then
      Ok(Frame(Titles(t.reports, t), t.curTabIdx, t.reports[t.curTabIdx].summary,
               PaletteOf(t, t.curTabIdx)))
    else Err(IndexOutOfBounds(|t.reports|, t.curTabIdx))
  }

  /** A drawn frame labels every tab with its command name, highlights
      exactly the selected tab in green, and shows the selected report's
      summary inside a green border. */
  lemma RenderShowsSelection(t: TabContents)
    requires Valid(t)
    ensures var f := Render(t).value;
      && (forall i :: 0 <= i < |t.reports| ==> f.titles[i].caption == t.reports[i].cmdname)
      && (forall i :: 0 <= i < |t.reports| ==> (f.titles[i].background == Green <==> i == t.curTabIdx))
      && f.body == t.reports[t.curTabIdx].summary
      && f.border == Green
  {
    TitlesContents(t.reports, t);
  }

  datatype AppState = Running | Quitting

  datatype App = App(state: AppState, allTabs: TabContents)

  /** `App::new`: running, on the first tab. */
  function New(reports: seq<Report>): (app: App)
    ensures app.state == Running && app.allTabs.reports == reports
    ensures app.allTabs.curTabIdx == 0
    ensures Valid(app.allTabs) <==> reports != []
  {
    App(Running, TabContents(0, reports))
  }

  datatype KeyEventKind = Press | Repeat | Release

  /** The key codes the application distinguishes; every other key is
      `OtherKey`. */
  datatype KeyCode = Char(c: char) | Left | Right | Esc | OtherKey

  /** A terminal event: a key, or anything else (mouse, resize, focus, paste). */
  datatype Event = Key(kind: KeyEventKind, code: KeyCode) | NonKey

  /** What a key press asks for. */
  datatype Action = NextTab | PreviousTab | Quit | Ignore

  /** The key binding of `handle_events`. */
  function ActionOf(e: Event): (a: Action)
    ensures a != Ignore ==> e.Key? && e.kind == Press
  {
    match e
    case Key(Press, code) =>
      if code == Char('l') || code == Right then NextTab
      else if code == Char('h') || code == Left then PreviousTab
      else if code == Char('q') || code == Esc then Quit
      else Ignore
    case _ => Ignore
  }

  /** Exactly `l` and Right move right, `h` and Left move left, and `q` and
      Esc quit, and only when pressed. */
  lemma KeyBindings(e: Event)
    ensures ActionOf(e) == NextTab <==> e in {Key(Press, Char('l')), Key(Press, Right)}
    ensures ActionOf(e) == PreviousTab <==> e in {Key(Press, Char('h')), Key(Press, Left)}
    ensures ActionOf(e) == Quit <==> e in {Key(Press, Char('q')), Key(Press, Esc)}
  {
  }

  /** `handle_events` after the read: apply the bound action. Moving right
      panics only on an empty list of reports. */
  function HandleEvent(app: App, e: Event): (r: Result<App, string>)
    ensures r.Err? <==> ActionOf(e) == NextTab && app.allTabs.reports == []
    ensures r.Ok? ==> r.value.allTabs.reports == app.allTabs.reports
    ensures r.Ok? && ActionOf(e) != Quit ==> r.value.state == app.state
    ensures ActionOf(e) == NextTab && r.Ok? ==> r.value == app.(allTabs := Next(app.allTabs).value)
    ensures ActionOf(e) == PreviousTab ==> r == Ok(app.(allTabs := Previous(app.allTabs)))
    ensures ActionOf(e) == Quit ==> r == Ok(app.(state := Quitting))
    ensures ActionOf(e) == Ignore ==> r == Ok(app)
  {
    match ActionOf(e)
    case NextTab =>
      (match Next(app.allTabs)
       case Err(m) => Err(m)
       case Ok(t) => Ok(app.(allTabs := t)))
    case PreviousTab => Ok(app.(allTabs := Previous(app.allTabs)))
    case Quit => Ok(app.(state := Quitting))
    case Ignore => Ok(app)
  }

  /** Handling an event keeps the selection on an existing tab. */
  lemma HandleEventPreservesValid(app: App, e: Event)
    requires Valid(app.allTabs)
    ensures HandleEvent(app, e).Ok? && Valid(HandleEvent(app, e).value.allTabs)
  {
    MovesPreserveValid(app.allTabs);
  }

  /** How `run` ends: it returned after the user quit (with the events it
      did not read), an event read failed, the program panicked, or it is
      still running and waiting for an event the input does not hold. */
  datatype Outcome =
    | Stopped(app: App, unread: seq<Result<Event, string>>)
    | ReadFailed(error: string)
    | Panicked(message: string)
    | Waiting(app: App)

  /** `run`: while the state is `Running`, draw, then read and handle one
      event. */
  function Run(app: App, input: seq<Result<Event, string>>): (o: Outcome)
    ensures o.Stopped? ==> o.app.state == Quitting
    ensures o.Stopped? ==> |o.unread| <= |input| && o.unread == input[|input| - |o.unread|..]
    ensures o.Waiting? ==> o.app.state == Running
    decreases |input|
  {
    if !app.state.Running? then
      assert input[0..] == input;
      Stopped(app, input)
    else if Render(app.allTabs).Err? then Panicked(Render(app.allTabs).error)
    else if input == [] then Waiting(app)
    else match input[0]
      case Err(e) => ReadFailed(e)
      case Ok(ev) =>
        match HandleEvent(app, ev)
        case Err(m) => Panicked(m)
        case Ok(app') =>
          Run(app', input[1..])
  }

  /** The loop as written: a `while` over the state, reading one event per
      iteration; it computes what `Run` defines. */
  method RunLoop(app: App, input: seq<Result<Event, string>>) returns (o: Outcome)
    ensures o == Run(app, input)
  {
    var cur, i := app, 0;
    while cur.state.Running?
      invariant i <= |input|
      invariant Run(cur, input[i..]) == Run(app, input)
      decreases |input| - i
    {
      var frame := Render(cur.allTabs);
      if frame.Err? {
        return Panicked(frame.error);
      }
      if i == |input| {
        return Waiting(cur);
      }
      match input[i]
      case Err(e) =>
        return ReadFailed(e);
      case Ok(ev) =>
        // The draw succeeded, so there is a tab and no move can panic.
        var next := HandleEvent(cur, ev);
        assert input[i..][1..] == input[i + 1..];
        cur, i := next.value, i + 1;
    }
    o := Stopped(cur, input[i..]);
  }

  /** A quitting application reads nothing and stops at once. */
  lemma QuittingReadsNothing(app: App, input: seq<Result<Event, string>>)
    requires app.state == Quitting
    ensures Run(app, input) == Stopped(app, input)
  {
  }

  /** With no reports the first draw panics, before any event is read. */
  lemma EmptyReportsPanic(input: seq<Result<Event, string>>)
    ensures Run(New([]), input) == Panicked(IndexOutOfBounds(0, 0))
  {
  }

  /** Started on a non-empty list of reports, the loop never panics, never
      changes the reports, and keeps the selection on an existing tab. */
  lemma {:induction false} RunNeverPanics(app: App, input: seq<Result<Event, string>>)
    requires Valid(app.allTabs)
    ensures !Run(app, input).Panicked?
    ensures Run(app, input).Stopped? ==>
      Run(app, input).app.allTabs.reports == app.allTabs.reports && Valid(Run(app, input).app.allTabs)
    ensures Run(app, input).Waiting? ==>
      Run(app, input).app.allTabs.reports == app.allTabs.reports && Valid(Run(app, input).app.allTabs)
    decreases |input|
  {
    if app.state == Running && input != [] && input[0].Ok? {
      HandleEventPreservesValid(app, input[0].value);
      RunNeverPanics(HandleEvent(app, input[0].value).value, input[1..]);
    }
  }

  /** The application as `main` runs it, on the collected reports. */
  lemma NewNeverPanics(reports: seq<Report>, input: seq<Result<Event, string>>)
    requires reports != []
    ensures !Run(New(reports), input).Panicked?
  {
    RunNeverPanics(New(reports), input);
  }

  /** `main` as a whole: when the built-in collection completes, the
      application started on its reports never panics, whatever events
      arrive. */
  lemma CollectedAppNeverPanics(which: WhichOracle, spawn: SpawnOracle, input: seq<Result<Event, string>>)
    ensures var r := PerfCheck.Collect(which, spawn);
      r.Ok? ==> !Run(New(r.value), input).Panicked?
  {
    var r := PerfCheck.Collect(which, spawn);
    if r.Ok? {
      PerfCheck.CollectLabels(which, spawn);
      NewNeverPanics(r.value, input);
    }
  }

  /** Pressing `q` or Esc ends the loop right after that event. */
  lemma {:induction false} QuitKeyStops(app: App, key: KeyCode, rest: seq<Result<Event, string>>)
    requires app.state == Running && Valid(app.allTabs)
    requires key == Char('q') || key == Esc
    ensures Run(app, [Ok(Key(Press, key))] + rest) == Stopped(app.(state := Quitting), rest)
  {
    var input := [Ok(Key(Press, key))] + rest;
    assert input[1..] == rest;
  }

  /** `k` presses of `l` move the selection `k` tabs right, stopping at
      the last tab. */
  lemma {:induction false} PressingRight(app: App, k: nat)
    requires app.state == Running && Valid(app.allTabs)
    ensures var n := |app.allTabs.reports|;
      Run(app, seq(k, _ => Ok(Key(Press, Char('l'))))) ==
      Waiting(app.(allTabs := app.allTabs.(curTabIdx :=
        if app.allTabs.curTabIdx + k < n then app.allTabs.curTabIdx + k else n - 1)))
    decreases k
  {
    var input: seq<Result<Event, string>> := seq(k, _ => Ok(Key(Press, Char('l'))));
    if k > 0 {
      var app' := HandleEvent(app, Key(Press, Char('l'))).value;
      MovesPreserveValid(app.allTabs);
      assert input[1..] == seq(k - 1, _ => Ok(Key(Press, Char('l'))));
      PressingRight(app', k - 1);
    }
  }
}

=== FILE: text.dfy ===
/** The string primitives the command reporter relies on, over strings of
    Unicode scalar values: `str::trim`, `str::split_once` on a character,
    `str::replace('\t', "    ")` and `str::split_ascii_whitespace`. */
module Text {
  import opened Wrappers

  /** The Unicode White_Space property, which `char::is_whitespace` and
      therefore `str::trim` use. */
  predicate IsWhitespace(c: char) {
    || c == ' '
    || '\t' <= c <= '\r'   // tab, line feed, vertical tab, form feed, carriage return
    || c == '\U{85}' || c == '\U{A0}' || c == '\U{1680}'
    || '\U{2000}' <= c <= '\U{200A}'
    || c == '\U{2028}' || c == '\U{2029}' || c == '\U{202F}' || c == '\U{205F}' || c == '\U{3000}'
  }

  /** `u8::is_ascii_whitespace`: space, tab, line feed, form feed and carriage
      return. Vertical tab is NOT included. */
  predicate IsAsciiWhitespace(c: char) {
    c == ' ' || c == '\t' || c == '\n' || c == '\U{0C}' || c == '\r'
  }

  lemma AsciiWhitespaceIsWhitespace(c: char)
    ensures IsAsciiWhitespace(c) ==> IsWhitespace(c)
    ensures IsWhitespace(c) && c < '\U{80}' ==> IsAsciiWhitespace(c) || c == '\U{0B}'
  {
  }

  predicate AllWhitespace(s: string) {
    forall i :: 0 <= i < |s| ==> IsWhitespace(s[i])
  }

  /** Neither end of `s` is whitespace: what `trim` leaves behind. */
  predicate IsTrimmed(s: string) {
    s == [] || (!IsWhitespace(s[0]) && !IsWhitespace(s[|s| - 1]))
  }

  /** The number of whitespace characters `s` starts with. */
  function LeadingWhitespace(s: string): (k: nat)
    ensures k <= |s|
  {
    if s == [] || !IsWhitespace(s[0]) then 0 else 1 + LeadingWhitespace(s[1..])
  }

  /** `LeadingWhitespace` counts the longest all-whitespace prefix. */
  lemma {:induction false} LeadingWhitespaceMaximal(s: string)
    ensures var k := LeadingWhitespace(s);
      AllWhitespace(s[..k]) && (k == |s| || !IsWhitespace(s[k]))
    decreases |s|
  {
    if s != [] && IsWhitespace(s[0]) {
      var k' := LeadingWhitespace(s[1..]);
      LeadingWhitespaceMaximal(s[1..]);
      assert forall i :: 1 <= i < 1 + k' ==> s[i] == s[1..][..k'][i - 1];
    }
  }

  /** The number of whitespace characters `s` ends with. */
  function TrailingWhitespace(s: string): (k: nat)
    ensures k <= |s|
  {
    if s == [] || !IsWhitespace(s[|s| - 1]) then 0 else 1 + TrailingWhitespace(s[..|s| - 1])
  }

  /** `TrailingWhitespace` counts the longest all-whitespace suffix. */
  lemma {:induction false} TrailingWhitespaceMaximal(s: string)
    ensures var k := TrailingWhitespace(s);
      AllWhitespace(s[|s| - k..]) && (k == |s| || !IsWhitespace(s[|s| - k - 1]))
    decreases |s|
  {
    if s != [] && IsWhitespace(s[|s| - 1]) {
      var init := s[..|s| - 1];
      var k' := TrailingWhitespace(init);
      TrailingWhitespaceMaximal(init);
      assert forall i :: |s| - 1 - k' <= i < |s| - 1 ==> s[i] == init[|init| - k'..][i - (|s| - 1 - k')];
    }
  }

  /** `str::trim`: `s` without its leading and trailing whitespace.
      `TrimInfix` says what the result is. */
  function Trim(s: string): (r: string)
    ensures |r| <= |s|
  {
    var t := s[LeadingWhitespace(s)..];
    t[..|t| - TrailingWhitespace(t)]
  }

  /** The trimmed string is the infix of `s` that has only whitespace around
      it and neither starts nor ends with whitespace. */
  lemma TrimInfix(s: string) returns (i: nat, j: nat)
    ensures i <= j <= |s|
    ensures Trim(s) == s[i..j]
    ensures AllWhitespace(s[..i]) && AllWhitespace(s[j..])
    ensures IsTrimmed(Trim(s))
  {
    i := LeadingWhitespace(s);
    var t := s[i..];
    var k := TrailingWhitespace(t);
    LeadingWhitespaceMaximal(s);
    TrailingWhitespaceMaximal(t);
    assert t != [] ==> k < |t|;
    j := i + |t| - k;
    assert Trim(s) == s[i..j];
    assert s[j..] == t[|t| - k..];
  }

  /** `TrimInfix` without its witnesses: the trimmed string is an infix of
      `s` with only whitespace before and after it. */
  lemma TrimIsInfix(s: string)
    ensures exists i, j :: 0 <= i <= j <= |s| && Trim(s) == s[i..j] && AllWhitespace(s[..i]) && AllWhitespace(s[j..])
  {
    var i, j := TrimInfix(s);
  }

  /** Trimming always leaves a trimmed string. */
  lemma TrimIsTrimmed(s: string)
    ensures IsTrimmed(Trim(s))
  {
    var i, j := TrimInfix(s);
  }

  /** Trimming a string that is already trimmed changes nothing. */
  lemma TrimOfTrimmed(s: string)
    requires IsTrimmed(s)
    ensures Trim(s) == s
  {
    if s != [] {
      assert LeadingWhitespace(s) == 0;
      assert TrailingWhitespace(s) == 0;
    }
  }

  /** One trailing whitespace character is trimmed off a trimmed string. */
  lemma TrimOfPadded(s: string, w: char)
    requires IsTrimmed(s) && s != [] && IsWhitespace(w)
    ensures Trim(s + [w]) == s
  {
    var t := s + [w];
    assert LeadingWhitespace(t) == 0;
    assert t[..|t| - 1] == s;
    assert TrailingWhitespace(s) == 0;
    assert TrailingWhitespace(t) == 1;
  }

  /** `trim` is idempotent. */
  lemma TrimIdempotent(s: string)
    ensures Trim(Trim(s)) == Trim(s)
  {
    TrimIsTrimmed(s);
    TrimOfTrimmed(Trim(s));
  }

  /** Trimming yields the empty string exactly when `s` is all whitespace. */
  lemma TrimEmptyIff(s: string)
    ensures Trim(s) == [] <==> AllWhitespace(s)
  {
    if Trim(s) == [] {
      TrimEmptyOnlyIfAllWhitespace(s);
    } else if AllWhitespace(s) {
      LeadingWhitespaceMaximal(s);
    }
  }

  lemma TrimEmptyOnlyIfAllWhitespace(s: string)
    requires Trim(s) == []
    ensures AllWhitespace(s)
  {
    var i, j := TrimInfix(s);
    assert i == j;
    forall k | 0 <= k < |s| ensures IsWhitespace(s[k]) {
      if k < i { assert s[..i][k] == s[k]; } else { assert s[j..][k - j] == s[k]; }
    }
  }

  /** Every character of the trimmed string occurs in the original. */
  lemma TrimKeepsOnlyOriginalChars(s: string, c: char)
    requires c !in s
    ensures c !in Trim(s)
  {
    var i, j := TrimInfix(s);
  }

  /** The position of the first `c` in `s`, if any. */
  function IndexOf(s: string, c: char): (r: Option<nat>)
    ensures r.Some? ==> r.value < |s| && s[r.value] == c && c !in s[..r.value]
    ensures r.None? ==> c !in s
  {
    if s == [] then None
    else if s[0] == c then Some(0)
    else
      match IndexOf(s[1..], c)
      case None => None
      case Some(i) =>
        assert s[..i + 1] == [s[0]] + s[1..][..i];
        Some(i + 1)
  }

  /** `str::split_once(c)`: the text before the first `c` and the text after
      it, or `None` when `s` has no `c`. */
  function SplitOnce(s: string, c: char): (r: Option<(string, string)>)
    ensures r.None? <==> c !in s
    ensures r.Some? ==> s == r.value.0 + [c] + r.value.1 && c !in r.value.0
  {
    match IndexOf(s, c)
    case None => None
    case Some(i) =>
      assert s == s[..i] + [c] + s[i + 1..];
      Some((s[..i], s[i + 1..]))
  }

  /** The converse of `SplitOnce`: joining two parts around `c`, the first of
      which has no `c`, splits back into exactly those parts. */
  lemma SplitOnceOfJoin(a: string, c: char, b: string)
    requires c !in a
    ensures SplitOnce(a + [c] + b, c) == Some((a, b))
  {
    var s := a + [c] + b;
    var r := SplitOnce(s, c);
    assert s[|a|] == c;
    var a', b' := r.value.0, r.value.1;
    assert s == a' + [c] + b';
    assert |a'| == |a|;
    assert a' == s[..|a|] == a;
    assert b' == s[|a| + 1..] == b;
  }

  /** `str::replace('\t', "    ")`: every horizontal tab becomes four
      spaces. The result has no tab left. */
  function ExpandTabs(s: string): (r: string)
    ensures '\t' !in r
  {
    if s == [] then []
    else (if s[0] == '\t' then "    " else [s[0]]) + ExpandTabs(s[1..])
  }

  /** Tab expansion grows the string by three characters per tab. */
  lemma {:induction false} ExpandTabsLength(s: string)
    ensures |ExpandTabs(s)| == |s| + 3 * multiset(s)['\t']
    decreases |s|
  {
    if s != [] {
      assert s == [s[0]] + s[1..];
      ExpandTabsLength(s[1..]);
    }
  }

  /** A single character: a tab becomes four spaces and anything else stays.
      With `ExpandTabsAppend` this determines the whole replacement. */
  lemma ExpandTabsChar(c: char)
    ensures ExpandTabs([c]) == if c == '\t' then "    " else [c]
  {
  }

  /** Tab expansion works character by character, so it distributes over
      concatenation. */
  lemma {:induction false} ExpandTabsAppend(a: string, b: string)
    ensures ExpandTabs(a + b) == ExpandTabs(a) + ExpandTabs(b)
    decreases |a|
  {
    if a == [] {
      assert a + b == b;
    } else {
      assert (a + b)[1..] == a[1..] + b;
      ExpandTabsAppend(a[1..], b);
    }
  }

  /** A string without tabs is left unchanged. */
  lemma {:induction false} ExpandTabsNoTab(s: string)
    requires '\t' !in s
    ensures ExpandTabs(s) == s
    decreases |s|
  {
    if s != [] {
      ExpandTabsNoTab(s[1..]);
    }
  }

  /** Tab expansion is idempotent. */
  lemma ExpandTabsIdempotent(s: string)
    ensures ExpandTabs(ExpandTabs(s)) == ExpandTabs(s)
  {
    ExpandTabsNoTab(ExpandTabs(s));
  }

  /** A token of `split_ascii_whitespace`: non-empty and free of ASCII
      whitespace. */
  predicate IsToken(t: string) {
    t != [] && forall i :: 0 <= i < |t| ==> !IsAsciiWhitespace(t[i])
  }

  /** The length of the longest prefix of `s` without ASCII whitespace. */
  function WordLength(s: string): (w: nat)
    ensures w <= |s|
    ensures forall i :: 0 <= i < w ==> !IsAsciiWhitespace(s[i])
    ensures w == |s| || IsAsciiWhitespace(s[w])
  {
    if s == [] || IsAsciiWhitespace(s[0]) then 0 else 1 + WordLength(s[1..])
  }

  /** A word of `a` followed by whitespace ends no later than `a` does:
      what follows the whitespace does not matter. */
  lemma {:induction false} WordLengthPrefix(a: string, b: string)
    requires b != [] && IsAsciiWhitespace(b[0])
    ensures WordLength(a + b) == WordLength(a)
    decreases |a|
  {
    if a == [] {
      assert a + b == b;
    } else if !IsAsciiWhitespace(a[0]) {
      assert (a + b)[1..] == a[1..] + b;
      WordLengthPrefix(a[1..], b);
    }
  }

  /** `str::split_ascii_whitespace`: the maximal runs of non-ASCII-whitespace
      characters of `s`, in order. */
  function Tokens(s: string): (ts: seq<string>)
    ensures forall k :: 0 <= k < |ts| ==> IsToken(ts[k])
    decreases |s|
  {
    if s == [] then []
    else if IsAsciiWhitespace(s[0]) then Tokens(s[1..])
    else
      var w := WordLength(s);
      [s[..w]] + Tokens(s[w..])
  }

  /** Splitting at one ASCII whitespace character splits the tokens: tokens
      never span whitespace. */
  lemma {:induction false} TokensAppend(a: string, c: char, b: string)
    requires IsAsciiWhitespace(c)
    ensures Tokens(a + [c] + b) == Tokens(a) + Tokens(b)
    decreases |a|
  {
    var s := a + [c] + b;
    if a == [] {
      assert s[1..] == b;
    } else if IsAsciiWhitespace(a[0]) {
      assert s[1..] == a[1..] + [c] + b;
      TokensAppend(a[1..], c, b);
    } else {
      var w := WordLength(a);
      WordLengthPrefix(a, [c] + b);
      assert s == a + ([c] + b);
      assert s[..w] == a[..w];
      assert s[w..] == a[w..] + [c] + b;
      TokensAppend(a[w..], c, b);
    }
  }

  /** A single token is split into itself. */
  lemma TokensOfToken(t: string)
    requires IsToken(t)
    ensures Tokens(t) == [t]
  {
    var w := WordLength(t);
    assert t[..w] == t;
    assert Tokens(t[w..]) == [];
    assert t[|t|..] == [];
  }

  /** The tokens joined by single spaces. */
  function JoinSpaces(ts: seq<string>): string {
    if ts == [] then ""
    else if |ts| == 1 then ts[0]
    else ts[0] + " " + JoinSpaces(ts[1..])
  }

  /** Tokenising is a left inverse of joining by single spaces. */
  lemma {:induction false} TokensOfJoin(ts: seq<string>)
    requires forall k :: 0 <= k < |ts| ==> IsToken(ts[k])
    ensures Tokens(JoinSpaces(ts)) == ts
    decreases |ts|
  {
    if ts == [] {
    } else if |ts| == 1 {
      TokensOfToken(ts[0]);
    } else {
      TokensAppend(ts[0], ' ', JoinSpaces(ts[1..]));
      TokensOfToken(ts[0]);
      TokensOfJoin(ts[1..]);
      assert ts == [ts[0]] + ts[1..];
    }
  }

  /** `needle` occurs somewhere in `s`. */
  predicate Contains(s: string, needle: string) {
    exists i :: 0 <= i <= |s| && needle <= s[i..]
  }

  /** A string contains each of its infixes. */
  lemma ContainsInfix(a: string, b: string, c: string)
    ensures Contains(a + b + c, b)
  {
    assert b <= (a + b + c)[|a|..];
  }

  /** Text put in front of a string keeps what it contains. */
  lemma ContainsAfter(a: string, s: string, needle: string)
    requires Contains(s, needle)
    ensures Contains(a + s, needle)
  {
    var i :| 0 <= i <= |s| && needle <= s[i..];
    assert (a + s)[|a| + i..] == s[i..];
  }

  lemma ContainsWitness(s: string, needle: string, i: nat)
    requires i + |needle| <= |s| && s[i..i + |needle|] == needle
    ensures Contains(s, needle)
  {
    assert needle <= s[i..];
  }

  /** The decimal digit for `d`. */
  function DigitChar(d: nat): (c: char)
    requires d < 10
    ensures '0' <= c <= '9'
  {
    ('0' as int + d) as char
  }

  /** A natural number as `{}` prints it: its decimal digits, most
      significant first, with no leading zero. */
  function Decimal(n: nat): (s: string)
    ensures s != [] && (|s| > 1 ==> s[0] != '0')
    ensures forall i :: 0 <= i < |s| ==> '0' <= s[i] <= '9'
    decreases n
  {
    if n < 10 then [DigitChar(n)] else Decimal(n / 10) + [DigitChar(n % 10)]
  }

  /** The number a string of decimal digits denotes. */
  function DecimalValue(s: string): nat
    requires forall i :: 0 <= i < |s| ==> '0' <= s[i] <= '9'
    decreases |s|
  {
    if s == [] then 0
    else DecimalValue(s[..|s| - 1]) * 10 + (s[|s| - 1] as int - '0' as int)
  }

  /** Reading the printed digits back gives the number: the printing loses
      nothing. */
  lemma {:induction false} DecimalRoundTrip(n: nat)
    ensures DecimalValue(Decimal(n)) == n
    decreases n
  {
    if n >= 10 {
      var s := Decimal(n);
      assert s[..|s| - 1] == Decimal(n / 10);
      DecimalRoundTrip(n / 10);
    }
  }
}

=== FILE: wrappers.dfy ===
/** Failure-carrying datatypes used across the model: an optional value and a
    result that is either a value or an error. */
module Wrappers {

  datatype Option<+T> = None | Some(value: T)

  /** `Ok` carries a value; `Err` carries the error the source would return or
      abort with. */
  datatype Result<+T, +E> = Ok(value: T) | Err(error: E)
}
